=== FILE: README.md ===
# Garage door skill: request dispatcher

This project models `GarageRequestHandler` from `lambda_function.py`. That class is an
Alexa skill handler. It opens, closes and reports on one or two garage doors
behind the MyQ service. The model is a set of pure functions. Each one takes:

- the handler's configuration (`USER_NAME`, `PASSWORD`, `LEFT`, `ONLY_CLOSE`);
- the doors' current states, as a list of state strings in the order the door
  service lists them;
- an already parsed request.

It returns either a response envelope with the open/close commands the handler would send,
or a `Fatal` error. A `Fatal` error stands for an exception that escapes `lambda_handler`.

Modules, in dependency order:

- `Outcomes`: `Option` and a failure-compatible `Result`.
- `Text`: Python's `p in s`, `startswith`, `str.replace(p, '')` and `str.join`.
- `Decimal`: Python's `int()` on a door selector id, and the `str(n)` it inverts.
- `Speech`: `build_speechlet_response` and `build_response`.
- `Settings`: `validate_env`, plus the help phrases from `__init__` and the one-door
  rewrite in `process`.
- `Doors`: `get_door_index`, Python list indexing (`Locate`), and the commands
  sent to a door.
- `Dispatcher`: every intent handler, `on_intent`, `process` and `lambda_handler`.
- `GarageProperties`: properties that hold for all requests.
- `Scenarios`: the repository's test cases, stated over two closed doors.

Behaviour modelled as written:

- A request naming "both" doors in a household without exactly one door is
  served by the all-doors path. That path never consults `only_close`, so it opens doors
  even in only-close mode (`GarageProperties.BothDoorsIgnoreOnlyClose`).
- Door positions follow Python indexing. The selector "0" resolves to index -1,
  which is the last door (`GarageProperties.ZeroSelectorIsLastDoor`).
  `LEFT` may be any integer. An out-of-range position inside a move or state
  request becomes a "Try again" response. In the all-doors status question it escapes
  as a fatal error.
- Any action id other than "close" is treated as a request to open.

## Model

| member | source | states |
|---|---|---|
| Settings.ValidateEnv | lambda_function.py:58-76 | The configuration exists exactly when both credentials are non-empty. `LEFT` defaults to 0 and the right door is `1 - LEFT`. Only-close holds unless it is explicitly off. Otherwise the error is the missing-credential messages joined by commas, user name first. |
| Dispatcher.NewHandler | lambda_function.py:48-56 | A handler exists exactly when the environment validates. Its phrases are the initial help phrases for its only-close setting. A bad environment is fatal with the validation message. |
| Settings.OneDoorPhrases | lambda_function.py:52-56 | For one door, removing " left or right" from the initial phrases gives the unqualified move phrase and check1 phrase. `check` becomes the rewritten check1 phrase. |
| Text.RemoveSingle | lambda_function.py:368-369 | Python's `replace(p, '')` on a string in which `p` occurs only at one place removes exactly that occurrence. |
| Settings.OpenOffered | lambda_function.py:52-54 | For any door count, the move phrase starts with, and contains, "open or " exactly when only-close is off. |
| Settings.QualifierNamed | lambda_function.py:367-369 | The move and check1 phrases contain " left or right" exactly when the household does not have exactly one door. The all-doors check phrase never contains it. |
| Settings.WelcomeNamesDoors | lambda_function.py:147-149 | The welcome sentence contains " left or right" exactly when the household does not have exactly one door. |
| Settings.WelcomeOffersOpen | lambda_function.py:147-149 | The welcome sentence starts with "You can open or " exactly when only-close is off. |
| Decimal.ParseDecimalString | lambda_function.py:99 | `int()` reads back the decimal rendering of every natural number, with or without a leading sign. |
| Decimal.ParseRejectsNonDigit | lambda_function.py:99 | `int()` rejects any selector with a character that is neither a digit nor a leading sign. |
| GarageProperties.LeftRightIndices | lambda_function.py:90-97 | With `LEFT` in {0, 1}, "left" and "right" resolve to the two different positions of a two-door list, and "both" resolves to position 0. |
| GarageProperties.NumericSelector | lambda_function.py:98-99 | A numeric selector n, with or without a minus sign, resolves to n - 1. |
| GarageProperties.SelectorRejected | lambda_function.py:90-99 | A selector fails to resolve exactly when it is not "left", "right" or "both" and not an integer. The failure names the selector. |
| GarageProperties.ZeroSelectorIsLastDoor | lambda_function.py:87-99 | The selector "0" resolves to index -1, which addresses the last door. |
| Doors.Locate | lambda_function.py:87-88 | List indexing succeeds exactly for -n <= i < n on n doors. It addresses the position congruent to i modulo n, and otherwise fails with the index. |
| Dispatcher.MoveOne | lambda_function.py:182-203 | Moving one door sends at most one command. The command is sent exactly when the door is not already settled in that direction and it is not an open in only-close mode. Gives the "already", refusal and "Ok, ... now" speeches. The refusal is titled "Try again"; every other reply is titled "Open door" or "Close door" by direction. Any command is warranted by the door's state. The session ends. |
| Dispatcher.MoveAll | lambda_function.py:209-255 | Succeeds exactly when both configured positions exist. It commands exactly the doors not yet settled, and only those. It says "both", "left", "right" or "Both doors are ..." according to which doors acted. `only_close` plays no part. |
| Dispatcher.TryMove | lambda_function.py:171-203 | Fails exactly when one of these holds: the door name's spoken value is missing, the door name's or the command's resolution is missing, the all-doors move fails, or the single door's selector cannot be resolved or located. Every command is warranted. In only-close mode an open can only come from "both" in a household without exactly one door. The response is well formed and ends the session. |
| Dispatcher.MoveIntent | lambda_function.py:151-207 | A failure while interpreting the request gives "Try again" and no commands. It says "I didn't understand that. You can say " followed by the move phrase, reprompts with "Ask me to " followed by the move phrase, and keeps the session open. Otherwise the result is the interpreted reply. |
| Dispatcher.TryState | lambda_function.py:277-294 | Fails exactly when one of these holds: the door name's spoken value is missing, its resolution is missing or unresolvable, the State slot is missing, the position does not exist, or a non-empty asked state has no resolution. On success the answer is well formed, ends the session and is titled "Check door status". |
| Dispatcher.StateIntent | lambda_function.py:257-298 | A failure gives "Try again" and says "I didn't understand that. You can " followed by the check1 phrase. It reprompts with "Ask me to " followed by the check1 phrase, and the session stays open. Otherwise the result is the interpreted answer. |
| GarageProperties.StateAnswer | lambda_function.py:277-294 | The answer starts with "Yes, " exactly when the asked state's id equals the door's state, and then repeats the spoken state. Otherwise it is "No, ..." with the actual state. An empty asked state gets a bare report. |
| Dispatcher.AllStates | lambda_function.py:300-312 | Succeeds exactly when both configured positions exist. When one is missing, it fails with the missing index, the left door's first. The sentence starts with "Both doors are " exactly when the two states agree. Otherwise it names each door's state. The title is "Check door status". |
| Dispatcher.SingleState | lambda_function.py:314-319 | With at least one door, the answer is "The door is X." for the first door. |
| GarageProperties.AllStatesAnswer | lambda_function.py:125-129 | "What's up" reports door 0 alone for one door. For two doors it speaks the sentence for the left door's state (at `LEFT`) and the right door's state (at the other position). That sentence is "Both doors are ..." exactly when the two agree. It never sends commands. |
| Dispatcher.OnIntent | lambda_function.py:121-137 | Fails with an unknown intent exactly when the name is not one of the six known intents. A state question goes to the state handler and sends nothing. A move goes to the move handler. Help gives the welcome. "What's up" gives the single-door report in a one-door household. Otherwise it gives the two-door report, and fails exactly as that report does when a configured position is missing. Stop and Cancel both answer "Goodbye" under the title "Goodbye" and end the session. Only a move intent sends commands, and every command is warranted. |
| Speech.Build | lambda_function.py:327-349 | The speechlet is well formed. It is plain text, shown verbatim on a simple card titled "MyQ - " + title. Its parts read back as given, and the session ends exactly when the reprompt is empty. |
| Speech.BuildFromParts | lambda_function.py:327-349 | Every well-formed speechlet is the one built from its own title, speech and reprompt. |
| Speech.BuildInjective | lambda_function.py:327-349 | Different parts give different speechlets. |
| Speech.BuildResponse | lambda_function.py:351-357 | The envelope carries version "1.0", the given session attributes and the speechlet. |
| Dispatcher.Process | lambda_function.py:359-386 | Fails with an unknown request type exactly for types other than launch, intent and session-ended. The envelope is version "1.0" with no session attributes. Every command is warranted, and only a move request sends any. A session-ended request gets the envelope around the empty speechlet. |
| Dispatcher.LambdaHandler | lambda_function.py:389-392 | Missing credentials are fatal. Every command sent is warranted by the door's current state. |
| GarageProperties.HandleIntent | lambda_function.py:359-392 | With both credentials set, an intent request is answered by `on_intent`, run with the handler after the one-door rewrite. A reply is wrapped in the version "1.0" envelope with no session attributes. A failure ends the invocation unchanged. |
| GarageProperties.MoveOneDoor | lambda_function.py:176-203 | A move naming one resolvable door is exactly `MoveOne` on its resolved position, in the requested direction. |
| GarageProperties.UnresolvedMoveRetries | lambda_function.py:171-207 | A move with no command resolution, or whose single door is neither a name nor a number or lies outside the list, gets "Try again" with the session left open and sends nothing. |
| GarageProperties.BothIsMoveAll | lambda_function.py:176-180 | "both" in a household without exactly one door is the all-doors move in the requested direction. |
| GarageProperties.OpenBoth | lambda_function.py:209-231 | On two doors neither open nor opening, opening all sends an open to each door and says "Ok, opening both garage doors now". |
| GarageProperties.BothDoorsIgnoreOnlyClose | lambda_function.py:176-180 | A "both" request to open two closed doors opens both doors whatever `only_close` says. |
| GarageProperties.OnlyCloseOpensOnlyThroughBoth | lambda_function.py:185-201 | In only-close mode, any request that opens a door is a move request for "both" in a household without exactly one door. |
| GarageProperties.AtMostOneCommandPerDoor | lambda_function.py:209-255 | With `LEFT` in {0, 1}, a request sends at most two commands and never two to the same door. |
| GarageProperties.FatalOnlyForUnknownShapes | lambda_function.py:121-137 | With one or two doors and a valid `LEFT`, a request ends without a response exactly when its type or its intent is unknown, or the intent is missing. |
| GarageProperties.WelcomeForHousehold | lambda_function.py:117-118 | A launch or help request gets the welcome sentence for the household's door count. It sends nothing and ends the session. |
| Scenarios.LaunchOffersBothDoors | test_lambda.py:58-61 | For two closed doors with opening allowed, the launch response starts with "You can open or close the left or right door". |
| Scenarios.LeftDoorIsClosed | test_lambda.py:64-73 | Asking whether the left door is closed gets "Yes, the left door is closed". |
| Scenarios.BothDoorsAreClosed | test_lambda.py:76-80 | "What's up" gets "Both doors are closed". |
| Scenarios.OnlyCloseRefusesOpen | test_lambda.py:83-92 | In only-close mode, opening the left door gets the refusal and sends nothing. |
| Scenarios.OpenLeftDoor | test_lambda.py:95-105 | Opening the left door says "Ok, opening the left door now" and sends one open to position 0. |
| Scenarios.CloseClosedDoor | test_lambda.py:109-119 | Shutting door "1" gets "1 is already closed" and sends nothing. |
| Scenarios.CloseBothClosedDoors | test_lambda.py:123-133 | Shutting both doors gets "Both doors are closed" and sends nothing. |
| Scenarios.HelpOffersBothDoors | test_lambda.py:136-140 | The help response starts with "You can open or close the left or right door". |
| Scenarios.StopSaysGoodbye | test_lambda.py:143-147 | Stop gets "Goodbye". |
| Scenarios.NoThirdDoor | lambda_function.py:182-183 | On two doors, opening door "3" gets "Try again" with the session open and sends nothing, because index 2 does not exist. |
| Scenarios.StateWithoutSlot | lambda_function.py:278-298 | A state question without a State slot gets "Try again" with the session open. |
| Scenarios.UnknownIntentIsFatal | lambda_function.py:136-137 | An intent outside the known six ends without a response. |

## Left out

- Login to the door service, the HTTP session and the event loop (lines 359-362 and 389-392): the doors' states are a parameter. The commands the handler would await are returned as a list. The model assumes every command succeeds. In Python a command that raises inside a move is caught (lines 205-207), and the reply becomes "Try again". During a "both" move that can happen after the first door has already been commanded. The model does not represent either case.
- Door names and logging. The log lines only write to the log; the one exception is the new-session log line, covered under the raw JSON event below.
- Reading `.env` and the process environment: `Environment` holds the values already read. An unset `USER_NAME` or `PASSWORD` makes the environment reader raise its own error before `validate_env` can join messages; the model treats unset as empty. Malformed `LEFT` or `ONLY_CLOSE` text is not modelled either.
- The raw JSON event: a request is already parsed into its type and optional intent. The model has no session object. In Python, `process` first reads `event['session']['new']` (line 371). When that is true, the new-session log line also reads `event['request']['requestId']` and `event['session']['sessionId']` (lines 372-373). None of this is inside a `try`. An event missing one of these keys therefore raises `KeyError`, and the invocation ends with no response before the request type is looked at. The model answers such an event. A slot is its spoken value and the id of its first resolution. Missing keys, empty lists and a JSON `null` spoken value are all one failure, a missing value or resolution. Python treats `null` differently. A `null` door name would reach the speech as "None". A `null` State value is falsy at line 284, so Python gives the bare report "<name> is <state>". A `null` resolution id is also treated differently. `slot_value_id` returns `None` for it rather than raising (line 82). A `null` Command id is not "close", so Python moves the door open (lines 177 and 185). With "both" on two doors, that opens both doors even in only-close mode. A `null` State id with a non-empty spoken state gives "No, <name> is <state>" (lines 288-291). The model answers "Try again" in all four cases.
- `int()` on text with surrounding whitespace, digit-group underscores or non-ASCII digits: selector ids are ASCII, so the model accepts only an optional sign followed by ASCII digits.
- Dispatcher.TryState: its contract states when it fails and the shape and title of the answer, but not the speech itself. `GarageProperties.StateAnswer` states the speech for requests whose slots are present.
- Settings.WelcomeOffersOpen: states the offer to open as a prefix of the welcome sentence, not as a substring search across the whole sentence.
- Scenarios: the test cases' fixture event and the mocking of door commands are replaced by a fixed two-door household, both closed, with `LEFT` unset. The tests check only the spoken text; the model also checks the commands.

=== FILE: decimal.dfy ===
/** Python's `int(text)` on the canonical id of a door selector, and the
    decimal rendering that it inverts. */
module Decimal {
  import opened Outcomes

  predicate IsDigit(c: char) {
    '0' <= c <= '9'
  }

  predicate AllDigits(s: string) {
    forall i :: 0 <= i < |s| ==> IsDigit(s[i])
  }

  function DigitValue(c: char): nat
    requires IsDigit(c)
  {
    c as int - '0' as int
  }

  function DigitChar(d: nat): (c: char)
    requires d < 10
    ensures IsDigit(c) && DigitValue(c) == d
  {
    ('0' as int + d) as char
  }

  /** Value of a run of ASCII digits, most significant digit first. */
  function DigitsValue(s: string): nat
    requires AllDigits(s)
    decreases |s|
  {
    if |s| == 0 then 0 else 10 * DigitsValue(s[..|s| - 1]) + DigitValue(s[|s| - 1])
  }

  predicate IsSign(c: char) {
    c == '+' || c == '-'
  }

  /** `int(s)` in base 10: an optional sign followed by at least one ASCII
      digit; anything else raises `ValueError`, modelled as `None`. */
  function ParseInt(s: string): Option<int> {
    if |s| > 0 && IsSign(s[0]) then
      if |s| > 1 && AllDigits(s[1..]) then
        Some(if s[0] == '-' then -(DigitsValue(s[1..]) as int) else DigitsValue(s[1..]))
      else None
    else if |s| > 0 && AllDigits(s) then Some(DigitsValue(s))
    else None
  }

  /** `str(n)` for a natural number. */
  function DecimalString(n: nat): (s: string)
    ensures |s| > 0 && AllDigits(s)
    decreases n
  {
    if n < 10 then [DigitChar(n)] else DecimalString(n / 10) + [DigitChar(n % 10)]
  }

  lemma {:induction false} DecimalStringValue(n: nat)
    ensures DigitsValue(DecimalString(n)) == n
    decreases n
  {
    if n >= 10 {
      var s := DecimalString(n);
      assert s[..|s| - 1] == DecimalString(n / 10);
      DecimalStringValue(n / 10);
    }
  }

  /** `int(str(n)) == n`, with or without an explicit sign. */
  lemma ParseDecimalString(n: nat)
    ensures ParseInt(DecimalString(n)) == Some(n)
    ensures ParseInt("+" + DecimalString(n)) == Some(n)
    ensures ParseInt("-" + DecimalString(n)) == Some(-(n as int))
  {
    var s := DecimalString(n);
    DecimalStringValue(n);
    assert ("+" + s)[1..] == s;
    assert ("-" + s)[1..] == s;
  }

  /** A character that is neither a digit nor a leading sign makes `int()` raise. */
  lemma ParseRejectsNonDigit(s: string, i: nat)
    requires i < |s| && !IsDigit(s[i]) && !(i == 0 && IsSign(s[i]))
    ensures ParseInt(s) == None
  {
    if |s| > 1 && IsSign(s[0]) {
      assert s[1..][i - 1] == s[i];
    }
  }
}

=== FILE: dispatcher.dfy ===
/** `GarageRequestHandler`: from a parsed request and the doors' current
    states to a response and the commands sent to the doors. */
module Dispatcher {
  import opened Outcomes
  import opened Text
  import opened Speech
  import opened Settings
  import opened Doors

  /** A slot as the request carries it: the spoken `value`, and the canonical
      id of its first resolution; either may be missing. */
  datatype Slot = Slot(value: Option<string>, id: Option<string>)

  /** An intent with no slots at all is one with an empty slot map. */
  datatype Intent = Intent(name: string, slots: map<string, Slot>)

  datatype Request = Request(requestType: string, intent: Option<Intent>)

  /** Errors no handler catches: the invocation ends without a response. */
  datatype Fatal =
    | BadEnvironment(message: string)
    | UnknownRequestType(requestType: string)
    | MissingIntent
    | UnknownIntent(name: string)
    | Uncaught(failure: Failure)

  datatype Handler = Handler(config: Config, messages: Messages)

  /** A speechlet and the commands issued, in order, while producing it. */
  datatype Reply = Reply(speechlet: Speechlet, commands: seq<Command>)

  datatype Outcome = Outcome(response: Envelope, commands: seq<Command>)

  const RetryTitle := "Try again"
  const StatusTitle := "Check door status"
  const OnlyCloseRefusal := "Sorry, I can only close the door"

  const KnownIntents := {"StateIntent", "AllStatesIntent", "MoveIntent",
                         "AMAZON.HelpIntent", "AMAZON.StopIntent", "AMAZON.CancelIntent"}

  function SpokenValue(intent: Intent, slot: string): Result<string, Failure> {
    if slot in intent.slots && intent.slots[slot].value.Some? then Ok(intent.slots[slot].value.value)
    else Err(MissingValue(slot))
  }

  /** `slot_value_id`: the canonical id of the slot's first resolution. */
  function ValueId(intent: Intent, slot: string): Result<string, Failure> {
    if slot in intent.slots && intent.slots[slot].id.Some? then Ok(intent.slots[slot].id.value)
    else Err(MissingResolution(slot))
  }

  predicate HasOneDoor(doors: seq<string>) {
    |doors| == 1
  }

  /** The handler a fresh invocation starts with. */
  function NewHandler(env: Environment): (r: Result<Handler, Fatal>)
    ensures r.Ok? <==> env.userName != "" && env.password != ""
    ensures r.Ok? ==> r.value.config == ValidateEnv(env).value
    ensures r.Ok? ==> r.value.messages == InitialMessages(r.value.config.onlyClose)
    ensures r.Err? ==> r.error == BadEnvironment(ValidateEnv(env).error)
  {
    match ValidateEnv(env)
    case Ok(config) => Ok(Handler(config, InitialMessages(config.onlyClose)))
    case Err(message) => Err(BadEnvironment(message))
  }

  function Welcome(m: Messages): Speechlet {
    Build("Welcome", WelcomeText(m), "")
  }

  function Goodbye(): Speechlet {
    Build("Goodbye", "Goodbye", "")
  }

  function Escalate<T>(r: Result<T, Failure>): Result<T, Fatal> {
    match r
    case Ok(v) => Ok(v)
    case Err(f) => Err(Uncaught(f))
  }

  /** Moving one door: nothing is sent to a door already settled in the
      requested direction, and nothing is opened in only-close mode. */
  function MoveOne(config: Config, doors: seq<string>, pos: nat, doorName: string, d: Direction): (r: Reply)
    requires pos < |doors|
    ensures r.commands == [] || r.commands == [d.CommandFor(pos)]
    ensures r.commands == [d.CommandFor(pos)] <==> !d.Settled(doors[pos]) && !(d.Opening? && config.onlyClose)
    ensures d.Settled(doors[pos]) ==> SpeechText(r.speechlet) == doorName + " is already " + doors[pos]
    ensures !d.Settled(doors[pos]) && d.Opening? && config.onlyClose
            ==> Title(r.speechlet) == RetryTitle && SpeechText(r.speechlet) == OnlyCloseRefusal
    ensures r.commands != [] ==> SpeechText(r.speechlet) == "Ok, " + d.Verb() + " " + doorName + " now"
    ensures !(!d.Settled(doors[pos]) && d.Opening? && config.onlyClose) ==> Title(r.speechlet) == d.DoorTitle()
    ensures forall c :: c in r.commands ==> Warranted(doors, c) && c.Direction() == d
    ensures config.onlyClose ==> forall c :: c in r.commands ==> !c.Open?
    ensures WellFormed(r.speechlet) && r.speechlet.shouldEndSession
  {
    var state := doors[pos];
    if d.Settled(state) then
      Reply(Build(d.DoorTitle(), doorName + " is already " + state, ""), [])
    else if d.Opening? && config.onlyClose then
      Reply(Build(RetryTitle, OnlyCloseRefusal, ""), [])
    else
      Reply(Build(d.DoorTitle(), "Ok, " + d.Verb() + " " + doorName + " now", ""), [d.CommandFor(pos)])
  }

  function BothPhrase(d: Direction): string {
    "Ok, " + d.Verb() + " both garage doors now"
  }

  function LeftPhrase(d: Direction): string {
    "Ok, " + d.Verb() + " the left garage door now"
  }

  function RightPhrase(d: Direction): string {
    "Ok, " + d.Verb() + " the right garage door now"
  }

  function NeitherPhrase(d: Direction): string {
    "Both doors are " + d.Done()
  }

  /** `execute_open_all_intent` / `execute_close_all_intent`: read both doors,
      then command exactly those not already settled, and say which acted.
      `only_close` is not consulted. */
  function MoveAll(config: Config, doors: seq<string>, d: Direction): (r: Result<Reply, Failure>)
    ensures r.Ok? <==> Locate(|doors|, config.leftDoor).Ok? && Locate(|doors|, config.RightDoor()).Ok?
    ensures r.Ok? ==>
      var left := Locate(|doors|, config.leftDoor).value;
      var right := Locate(|doors|, config.RightDoor()).value;
      var leftActs := !d.Settled(doors[left]);
      var rightActs := !d.Settled(doors[right]);
      var speech := SpeechText(r.value.speechlet);
      && (forall c :: c in r.value.commands <==> (leftActs && c == d.CommandFor(left)) || (rightActs && c == d.CommandFor(right)))
      && |r.value.commands| == (if leftActs then 1 else 0) + (if rightActs then 1 else 0)
      && (leftActs && rightActs ==> speech == BothPhrase(d))
      && (leftActs && !rightActs ==> speech == LeftPhrase(d))
      && (!leftActs && rightActs ==> speech == RightPhrase(d))
      && (!leftActs && !rightActs ==> speech == NeitherPhrase(d))
      && (forall c :: c in r.value.commands ==> Warranted(doors, c) && c.Direction() == d)
      && Title(r.value.speechlet) == d.DoorsTitle()
      && WellFormed(r.value.speechlet) && r.value.speechlet.shouldEndSession
  {
    var left :- Locate(|doors|, config.leftDoor);
    var right :- Locate(|doors|, config.RightDoor());
    var leftActs := !d.Settled(doors[left]);
    var rightActs := !d.Settled(doors[right]);
    var commands := (if leftActs then [d.CommandFor(left)] else [])
                    + (if rightActs then [d.CommandFor(right)] else []);
    var speech :=
      if leftActs && rightActs then BothPhrase(d)
      else if leftActs then LeftPhrase(d)
      else if rightActs then RightPhrase(d)
      else NeitherPhrase(d);
    Ok(Reply(Build(d.DoorsTitle(), speech, ""), commands))
  }

  /** The requested direction: anything but "close" opens. */
  function DirectionOf(actionId: string): Direction {
    if actionId == "close" then Closing else Opening
  }

  /** The body of `execute_move_intent` inside its `try`. */
  function TryMove(config: Config, doors: seq<string>, intent: Intent): (r: Result<Reply, Failure>)
    ensures r.Err? <==>
      || SpokenValue(intent, "Name").Err?
      || ValueId(intent, "Name").Err?
      || ValueId(intent, "Command").Err?
      || (if ValueId(intent, "Name").value == "both" && !HasOneDoor(doors)
          then MoveAll(config, doors, DirectionOf(ValueId(intent, "Command").value)).Err?
          else
            || DoorIndex(config.leftDoor, ValueId(intent, "Name").value).Err?
            || Locate(|doors|, DoorIndex(config.leftDoor, ValueId(intent, "Name").value).value).Err?)
    ensures r.Ok? ==> forall c :: c in r.value.commands ==> Warranted(doors, c)
    ensures r.Ok? && config.onlyClose && (exists c :: c in r.value.commands && c.Open?)
            ==> ValueId(intent, "Name") == Ok("both") && !HasOneDoor(doors)
    ensures r.Ok? ==> WellFormed(r.value.speechlet) && r.value.speechlet.shouldEndSession
  {
    var doorName :- SpokenValue(intent, "Name");
    var nameId :- ValueId(intent, "Name");
    var actionId :- ValueId(intent, "Command");
    var d := DirectionOf(actionId);
    if nameId == "both" && !HasOneDoor(doors) then
      MoveAll(config, doors, d)
    else
      var index :- DoorIndex(config.leftDoor, nameId);
      var pos :- Locate(|doors|, index);
      Ok(MoveOne(config, doors, pos, doorName, d))
  }

  /** `execute_move_intent`: any failure becomes a "Try again" response that
      keeps the session open and sends nothing. */
  function MoveIntent(h: Handler, doors: seq<string>, intent: Intent): (r: Reply)
    ensures TryMove(h.config, doors, intent).Ok? ==> r == TryMove(h.config, doors, intent).value
    ensures TryMove(h.config, doors, intent).Err? ==>
      && r.commands == []
      && Title(r.speechlet) == RetryTitle
      && SpeechText(r.speechlet) == "I didn't understand that. You can say " + h.messages.move + "."
      && r.speechlet.reprompt.text == "Ask me to " + h.messages.move + "."
      && !r.speechlet.shouldEndSession
    ensures WellFormed(r.speechlet)
  {
    match TryMove(h.config, doors, intent)
    case Ok(reply) => reply
    case Err(_) =>
      Reply(Build(RetryTitle, "I didn't understand that. You can say " + h.messages.move + ".",
                  "Ask me to " + h.messages.move + "."), [])
  }

  /** The body of `execute_state_intent` inside its `try`. */
  function TryState(config: Config, doors: seq<string>, intent: Intent): (r: Result<Speechlet, Failure>)
    ensures r.Err? <==>
      || SpokenValue(intent, "Name").Err?
      || ValueId(intent, "Name").Err?
      || DoorIndex(config.leftDoor, ValueId(intent, "Name").value).Err?
      || SpokenValue(intent, "State").Err?
      || Locate(|doors|, DoorIndex(config.leftDoor, ValueId(intent, "Name").value).value).Err?
      || (SpokenValue(intent, "State").value != "" && ValueId(intent, "State").Err?)
    ensures r.Ok? ==> WellFormed(r.value) && r.value.shouldEndSession && Title(r.value) == StatusTitle
  {
    var doorName :- SpokenValue(intent, "Name");
    var nameId :- ValueId(intent, "Name");
    var index :- DoorIndex(config.leftDoor, nameId);
    var asked :- SpokenValue(intent, "State");
    var pos :- Locate(|doors|, index);
    var actual := doors[pos];
    if asked == "" then
      Ok(Build(StatusTitle, doorName + " is " + actual, ""))
    else
      var askedId :- ValueId(intent, "State");
      Ok(Build(StatusTitle,
               if askedId == actual then "Yes, " + doorName + " is " + asked
               else "No, " + doorName + " is " + actual, ""))
  }

  /** `execute_state_intent`: any failure becomes a "Try again" response that
      keeps the session open. */
  function StateIntent(h: Handler, doors: seq<string>, intent: Intent): (r: Speechlet)
    ensures TryState(h.config, doors, intent).Ok? ==> r == TryState(h.config, doors, intent).value
    ensures TryState(h.config, doors, intent).Err? ==>
      && Title(r) == RetryTitle
      && SpeechText(r) == "I didn't understand that. You can " + h.messages.check1 + "."
      && r.reprompt.text == "Ask me to " + h.messages.check1 + "."
      && !r.shouldEndSession
    ensures WellFormed(r)
  {
    match TryState(h.config, doors, intent)
    case Ok(s) => s
    case Err(_) =>
      Build(RetryTitle, "I didn't understand that. You can " + h.messages.check1 + ".",
            "Ask me to " + h.messages.check1 + ".")
  }

  /** `execute_all_states_intent`: one sentence when both doors agree, one
      clause per door otherwise. A bad position is not caught here. */
  function AllStates(config: Config, doors: seq<string>): (r: Result<Speechlet, Fatal>)
    ensures r.Ok? <==> Locate(|doors|, config.leftDoor).Ok? && Locate(|doors|, config.RightDoor()).Ok?
    ensures r.Err? ==> r.error == Uncaught(NoSuchDoor(if Locate(|doors|, config.leftDoor).Err? then config.leftDoor
                                                      else config.RightDoor()))
    ensures r.Ok? ==>
      var left := doors[Locate(|doors|, config.leftDoor).value];
      var right := doors[Locate(|doors|, config.RightDoor()).value];
      var speech := SpeechText(r.value);
      && (StartsWith(speech, "Both doors are ") <==> left == right)
      && (left == right ==> speech == "Both doors are " + left)
      && (left != right ==> speech == "The left door is " + left + ", and the right door is " + right + ".")
    ensures r.Ok? ==> WellFormed(r.value) && Title(r.value) == StatusTitle
  {
    var left :- Escalate(Locate(|doors|, config.leftDoor));
    var right :- Escalate(Locate(|doors|, config.RightDoor()));
    Ok(Build(StatusTitle, StatesSentence(doors[left], doors[right]), ""))
  }

  /** The sentence `execute_all_states_intent` speaks for two door states. */
  function StatesSentence(left: string, right: string): (s: string)
    ensures StartsWith(s, "Both doors are ") <==> left == right
    ensures left == right ==> s == "Both doors are " + left
    ensures left != right ==> s == "The left door is " + left + ", and the right door is " + right + "."
  {
    if left == right then
      "Both doors are " + left
    else
      var s := "The left door is " + left + ", and the right door is " + right + ".";
      assert s[0] == 'T' != "Both doors are "[0];
      s
  }

  /** `execute_state1_intent`: the state of the first door. */
  function SingleState(doors: seq<string>): (r: Result<Speechlet, Fatal>)
    ensures r.Ok? <==> |doors| > 0
    ensures r.Ok? ==> SpeechText(r.value) == "The door is " + doors[0] + "."
    ensures r.Ok? ==> WellFormed(r.value) && Title(r.value) == StatusTitle
  {
    var pos :- Escalate(Locate(|doors|, 0));
    Ok(Build(StatusTitle, "The door is " + doors[pos] + ".", ""))
  }

  /** `on_intent`. */
  function OnIntent(h: Handler, doors: seq<string>, intent: Intent): (r: Result<Reply, Fatal>)
    ensures r.Err? && r.error.UnknownIntent? <==> intent.name !in KnownIntents
    ensures r.Err? ==> r.error == UnknownIntent(intent.name) || (intent.name == "AllStatesIntent" && r.error.Uncaught?)
    ensures r.Ok? && intent.name != "MoveIntent" ==> r.value.commands == []
    ensures r.Ok? ==> forall c :: c in r.value.commands ==> Warranted(doors, c)
    ensures intent.name == "StateIntent" ==> r == Ok(Reply(StateIntent(h, doors, intent), []))
    ensures intent.name == "MoveIntent" ==> r == Ok(MoveIntent(h, doors, intent))
    ensures intent.name == "AMAZON.HelpIntent" ==> r == Ok(Reply(Welcome(h.messages), []))
    ensures intent.name == "AllStatesIntent" && HasOneDoor(doors) ==> r == Ok(Reply(SingleState(doors).value, []))
    ensures intent.name == "AllStatesIntent" && !HasOneDoor(doors) ==>
      && (r.Ok? <==> AllStates(h.config, doors).Ok?)
      && (r.Ok? ==> r.value == Reply(AllStates(h.config, doors).value, []))
      && (r.Err? ==> r.error == AllStates(h.config, doors).error)
    ensures intent.name == "AMAZON.StopIntent" || intent.name == "AMAZON.CancelIntent" ==>
      && r == Ok(Reply(Goodbye(), []))
      && SpeechText(r.value.speechlet) == "Goodbye" && Title(r.value.speechlet) == "Goodbye"
      && r.value.speechlet.shouldEndSession
  {
    if intent.name == "StateIntent" then
      Ok(Reply(StateIntent(h, doors, intent), []))
    else if intent.name == "AllStatesIntent" then
      var s :- if HasOneDoor(doors) then SingleState(doors) else AllStates(h.config, doors);
      Ok(Reply(s, []))
    else if intent.name == "MoveIntent" then
      Ok(MoveIntent(h, doors, intent))
    else if intent.name == "AMAZON.HelpIntent" then
      Ok(Reply(Welcome(h.messages), []))
    else if intent.name == "AMAZON.StopIntent" || intent.name == "AMAZON.CancelIntent" then
      Ok(Reply(Goodbye(), []))
    else
      Err(UnknownIntent(intent.name))
  }

  /** The handler as `process` leaves it: phrases rewritten for one door. */
  function ForDoors(h: Handler, doors: seq<string>): Handler {
    if HasOneDoor(doors) then h.(messages := OneDoor(h.messages)) else h
  }

  predicate IsMoveRequest(request: Request) {
    request.requestType == "IntentRequest" && request.intent.Some? && request.intent.value.name == "MoveIntent"
  }

  /** `process` once the doors are known. */
  function Process(h: Handler, doors: seq<string>, request: Request): (r: Result<Outcome, Fatal>)
    ensures r.Err? && r.error.UnknownRequestType?
            <==> request.requestType !in {"LaunchRequest", "IntentRequest", "SessionEndedRequest"}
    ensures r.Err? ==> !r.error.BadEnvironment?
    ensures r.Ok? ==> r.value.response.version == ResponseVersion && r.value.response.sessionAttributes == map[]
    ensures r.Ok? ==> forall c :: c in r.value.commands ==> Warranted(doors, c)
    ensures r.Ok? && r.value.commands != [] ==> IsMoveRequest(request)
    ensures request.requestType == "SessionEndedRequest" ==> r == Ok(Outcome(BuildResponse(map[], NoSpeech), []))
  {
    var h := ForDoors(h, doors);
    var reply :-
      if request.requestType == "LaunchRequest" then Ok(Reply(Welcome(h.messages), []))
      else if request.requestType == "IntentRequest" then
        if request.intent.None? then Err(MissingIntent) else OnIntent(h, doors, request.intent.value)
      else if request.requestType == "SessionEndedRequest" then Ok(Reply(NoSpeech, []))
      else Err(UnknownRequestType(request.requestType));
    Ok(Outcome(BuildResponse(map[], reply.speechlet), reply.commands))
  }

  /** `lambda_handler`, with the doors the login step returned. */
  function LambdaHandler(env: Environment, doors: seq<string>, request: Request): (r: Result<Outcome, Fatal>)
    ensures env.userName == "" || env.password == "" ==> r.Err? && r.error.BadEnvironment?
    ensures r.Ok? ==> forall c :: c in r.value.commands ==> Warranted(doors, c)
  {
    var h :- NewHandler(env);
    Process(h, doors, request)
  }
}

=== FILE: doors.dfy ===
/** Doors as the handler sees them: a list of state strings addressed by
    Python list indexing, the selector resolution of `get_door_index`, and
    the open/close commands sent to the door service. */
module Doors {
  import opened Outcomes
  import opened Decimal

  /** What interpreting a move or state request can raise. */
  datatype Failure =
    | MissingValue(slot: string)        // no spoken value for the slot
    | MissingResolution(slot: string)   // no first resolution id for the slot
    | NotANumber(id: string)            // `int()` rejected a selector id
    | NoSuchDoor(index: int)            // list index out of range

  /** The two ways a door can be moved. A door whose state is `Settled` for a
      direction is already there, or on its way, and is not commanded again. */
  datatype Direction = Opening | Closing {

    predicate Settled(state: string) {
      if Opening? then state == "open" || state == "opening"
      else state == "closed" || state == "closing"
    }

    function Verb(): string {
      if Opening? then "opening" else "closing"
    }

    function Done(): string {
      if Opening? then "open" else "closed"
    }

    function DoorTitle(): string {
      if Opening? then "Open door" else "Close door"
    }

    function DoorsTitle(): string {
      if Opening? then "Open doors" else "Close doors"
    }

    function CommandFor(door: nat): Command {
      if Opening? then Open(door) else Close(door)
    }
  }

  /** A command sent to the door at a list position. */
  datatype Command = Open(door: nat) | Close(door: nat) {
    function Direction(): Direction {
      if Open? then Opening else Closing
    }
  }

  /** A command is warranted when its door exists and is not already settled
      in the commanded direction. */
  predicate Warranted(doors: seq<string>, c: Command) {
    c.door < |doors| && !c.Direction().Settled(doors[c.door])
  }

  /** `get_door_index`: "left" and "right" go through the configured position,
      "both" stands for position 0 and anything else is a 1-based number. */
  function DoorIndex(leftDoor: int, id: string): Result<int, Failure> {
    if id == "left" then Ok(leftDoor)
    else if id == "right" then Ok(1 - leftDoor)
    else if id == "both" then Ok(0)
    else match ParseInt(id)
      case Some(n) => Ok(n - 1)
      case None => Err(NotANumber(id))
  }

  /** Python's `doors[index]`: negative indices count from the end. */
  function Locate(doorCount: nat, index: int): (r: Result<nat, Failure>)
    ensures r.Ok? <==> -(doorCount as int) <= index < doorCount
    ensures r.Ok? ==> r.value < doorCount && r.value % doorCount == index % doorCount
    ensures r.Err? ==> r.error == NoSuchDoor(index)
  {
    if 0 <= index < doorCount then Ok(index)
    else if -(doorCount as int) <= index < 0 then Ok(doorCount + index)
    else Err(NoSuchDoor(index))
  }
}

=== FILE: outcomes.dfy ===
/** Failure-compatible wrappers used throughout the model. */
module Outcomes {

  /** A value that may be absent: a missing dictionary key or an unset variable. */
  datatype Option<+T> = None | Some(value: T) {

    /** The value, or `default` when absent. */
    function GetOr(default: T): T {
      match this
      case Some(v) => v
      case None => default
    }
  }

  /** The outcome of a step that may raise: `Err` carries what was raised. */
  datatype Result<+T, +E> = Ok(value: T) | Err(error: E) {

    predicate IsFailure() {
      Err?
    }

    function PropagateFailure<U>(): Result<U, E>
      requires Err?
    {
      Err(error)
    }

    function Extract(): T
      requires Ok?
    {
      value
    }
  }
}

=== FILE: properties.dfy ===
/** Properties of the dispatcher that relate several calls or hold for all
    requests, and the behaviours the repository's tests describe. */
module GarageProperties {
  import opened Outcomes
  import opened Text
  import opened Decimal
  import opened Speech
  import opened Settings
  import opened Doors
  import opened Dispatcher

  predicate ValidLeft(config: Config) {
    config.leftDoor == 0 || config.leftDoor == 1
  }

  // ---- selector resolution ----

  /** With LEFT in {0, 1}, "left" and "right" name the two different
      positions of a two-door list, and "both" names position 0. */
  lemma LeftRightIndices(config: Config)
    requires ValidLeft(config)
    ensures DoorIndex(config.leftDoor, "left") == Ok(config.leftDoor)
    ensures DoorIndex(config.leftDoor, "right") == Ok(config.RightDoor())
    ensures DoorIndex(config.leftDoor, "both") == Ok(0)
    ensures config.leftDoor != config.RightDoor()
    ensures 0 <= config.RightDoor() <= 1
  {
  }

  /** A decimal selector n names index n - 1. */
  lemma NumericSelector(leftDoor: int, n: nat)
    ensures DoorIndex(leftDoor, DecimalString(n)) == Ok(n - 1)
    ensures DoorIndex(leftDoor, "-" + DecimalString(n)) == Ok(-(n as int) - 1)
  {
    ParseDecimalString(n);
    var s := DecimalString(n);
    assert IsDigit(s[0]);
    assert ("-" + s)[1] == s[0];
  }

  /** A selector is rejected exactly when it is none of the names and not a number. */
  lemma SelectorRejected(leftDoor: int, id: string)
    ensures DoorIndex(leftDoor, id).Err?
            <==> id != "left" && id != "right" && id != "both" && ParseInt(id) == None
    ensures DoorIndex(leftDoor, id).Err? ==> DoorIndex(leftDoor, id).error == NotANumber(id)
  {
  }

  /** As written, the selector "0" resolves to index -1, which Python's list
      indexing takes to mean the last door. */
  lemma ZeroSelectorIsLastDoor(leftDoor: int, doorCount: nat)
    requires doorCount > 0
    ensures DoorIndex(leftDoor, "0") == Ok(-1)
    ensures Locate(doorCount, -1) == Ok(doorCount - 1)
  {
    assert DecimalString(0) == "0";
    NumericSelector(leftDoor, 0);
  }

  // ---- moving doors ----

  function MoveRequest(name: Slot, command: Slot): Intent {
    Intent("MoveIntent", map["Name" := name, "Command" := command])
  }

  /** A move naming a single door acts through `MoveOne` on the resolved position. */
  lemma MoveOneDoor(h: Handler, doors: seq<string>, spoken: string, nameId: string, command: Slot)
    requires command.id.Some?
    requires nameId != "both" || HasOneDoor(doors)
    requires DoorIndex(h.config.leftDoor, nameId).Ok?
    requires Locate(|doors|, DoorIndex(h.config.leftDoor, nameId).value).Ok?
    ensures var pos := Locate(|doors|, DoorIndex(h.config.leftDoor, nameId).value).value;
      MoveIntent(h, doors, MoveRequest(Slot(Some(spoken), Some(nameId)), command))
        == MoveOne(h.config, doors, pos, spoken, DirectionOf(command.id.value))
  {
  }

  /** A move whose command is unresolved, or whose single door cannot be
      located (not a name nor a number, or past either end of the list), is
      answered "Try again" with the session left open, and sends nothing. */
  lemma UnresolvedMoveRetries(h: Handler, doors: seq<string>, spoken: string, nameId: string, command: Slot)
    requires || command.id.None?
             || ((nameId != "both" || HasOneDoor(doors))
                 && (|| DoorIndex(h.config.leftDoor, nameId).Err?
                     || Locate(|doors|, DoorIndex(h.config.leftDoor, nameId).value).Err?))
    ensures var r := MoveIntent(h, doors, MoveRequest(Slot(Some(spoken), Some(nameId)), command));
      && r.commands == []
      && Title(r.speechlet) == RetryTitle
      && !r.speechlet.shouldEndSession
  {
  }

  /** A "both" move in a household without exactly one door is the
      all-doors move in the requested direction. */
  lemma BothIsMoveAll(h: Handler, doors: seq<string>, spoken: string, command: Slot)
    requires !HasOneDoor(doors) && command.id.Some?
    ensures var intent := MoveRequest(Slot(Some(spoken), Some("both")), command);
      TryMove(h.config, doors, intent) == MoveAll(h.config, doors, DirectionOf(command.id.value))
  {
  }

  /** Opening both doors of a two-door household when neither is open or opening. */
  lemma OpenBoth(config: Config, doors: seq<string>)
    requires |doors| == 2 && ValidLeft(config)
    requires !Opening.Settled(doors[0]) && !Opening.Settled(doors[1])
    ensures var r := MoveAll(config, doors, Opening);
      && r.Ok? && Open(0) in r.value.commands && Open(1) in r.value.commands && |r.value.commands| == 2
      && SpeechText(r.value.speechlet) == "Ok, opening both garage doors now"
  {
    assert Locate(2, config.leftDoor).value + Locate(2, config.RightDoor()).value == 1;
  }

  /** "both" on a household with two doors opens every door not already open
      or opening, whatever `only_close` says. */
  lemma BothDoorsIgnoreOnlyClose(h: Handler, doors: seq<string>, spoken: string, command: Slot)
    requires |doors| == 2 && ValidLeft(h.config)
    requires command.id.Some? && command.id.value != "close"
    requires !Opening.Settled(doors[0]) && !Opening.Settled(doors[1])
    ensures var r := MoveIntent(h, doors, MoveRequest(Slot(Some(spoken), Some("both")), command));
      && Open(0) in r.commands && Open(1) in r.commands && |r.commands| == 2
      && SpeechText(r.speechlet) == "Ok, opening both garage doors now"
  {
    BothIsMoveAll(h, doors, spoken, command);
    OpenBoth(h.config, doors);
  }

  /** In only-close mode the one way a door gets opened is a "both" request
      in a household that does not have exactly one door. */
  lemma OnlyCloseOpensOnlyThroughBoth(h: Handler, doors: seq<string>, request: Request)
    requires h.config.onlyClose
    requires Process(h, doors, request).Ok?
    requires exists c :: c in Process(h, doors, request).value.commands && c.Open?
    ensures IsMoveRequest(request)
    ensures ValueId(request.intent.value, "Name") == Ok("both") && !HasOneDoor(doors)
  {
    var h' := ForDoors(h, doors);
    var intent := request.intent.value;
    assert Process(h, doors, request).value.commands == MoveIntent(h', doors, intent).commands;
    assert TryMove(h'.config, doors, intent).Ok?;
  }

  /** With LEFT in {0, 1}, no request sends two commands to the same door. */
  lemma AtMostOneCommandPerDoor(h: Handler, doors: seq<string>, request: Request)
    requires ValidLeft(h.config)
    requires Process(h, doors, request).Ok?
    ensures var commands := Process(h, doors, request).value.commands;
      |commands| <= 2 && forall i, j :: 0 <= i < j < |commands| ==> commands[i].door != commands[j].door
  {
    var commands := Process(h, doors, request).value.commands;
    if commands != [] {
      var h' := ForDoors(h, doors);
      var intent := request.intent.value;
      assert commands == MoveIntent(h', doors, intent).commands;
      var nameId := ValueId(intent, "Name").value;
      var d := DirectionOf(ValueId(intent, "Command").value);
      if nameId == "both" && !HasOneDoor(doors) {
        var r := MoveAll(h'.config, doors, d).value;
        assert commands == r.commands;
        var left := Locate(|doors|, h.config.leftDoor).value;
        var right := Locate(|doors|, h.config.RightDoor()).value;
        assert left != right;
        assert d.CommandFor(left) != d.CommandFor(right);
        if |commands| == 2 {
          assert commands[0] in commands && commands[1] in commands;
          assert d.CommandFor(left) in commands && d.CommandFor(right) in commands;
        }
      }
    }
  }

  // ---- asking about doors ----

  /** The yes/no answer: "Yes" exactly when the asked state's canonical id is
      the door's actual state; a "No" reports the actual state. An empty asked
      state gets a bare report. */
  lemma StateAnswer(h: Handler, doors: seq<string>, intent: Intent, spoken: string, nameId: string, asked: Slot)
    requires intent.name == "StateIntent"
    requires "Name" in intent.slots && intent.slots["Name"] == Slot(Some(spoken), Some(nameId))
    requires "State" in intent.slots && intent.slots["State"] == asked && asked.value.Some?
    requires asked.value.value != "" ==> asked.id.Some?
    requires DoorIndex(h.config.leftDoor, nameId).Ok?
    requires Locate(|doors|, DoorIndex(h.config.leftDoor, nameId).value).Ok?
    ensures var actual := doors[Locate(|doors|, DoorIndex(h.config.leftDoor, nameId).value).value];
      var speech := SpeechText(StateIntent(h, doors, intent));
      && (asked.value.value == "" ==> speech == spoken + " is " + actual)
      && (asked.value.value != "" ==>
            && (StartsWith(speech, "Yes, ") <==> asked.id.value == actual)
            && (asked.id.value == actual ==> speech == "Yes, " + spoken + " is " + asked.value.value)
            && (asked.id.value != actual ==> speech == "No, " + spoken + " is " + actual))
  {
    var actual := doors[Locate(|doors|, DoorIndex(h.config.leftDoor, nameId).value).value];
    var speech := SpeechText(StateIntent(h, doors, intent));
    if asked.value.value != "" && asked.id.value != actual {
      assert speech == "No, " + spoken + " is " + actual;
      assert speech[0] == 'N';
    }
  }

  /** With one door, "what's up" reports door 0 alone; with two, it reports
      the pair as one sentence exactly when they agree. */
  lemma AllStatesAnswer(h: Handler, doors: seq<string>)
    requires 1 <= |doors| <= 2 && ValidLeft(h.config)
    ensures var r := OnIntent(h, doors, Intent("AllStatesIntent", map[]));
      && r.Ok? && r.value.commands == []
      && (|doors| == 1 ==> SpeechText(r.value.speechlet) == "The door is " + doors[0] + ".")
      && (|doors| == 2 ==>
            && SpeechText(r.value.speechlet) == StatesSentence(doors[h.config.leftDoor], doors[h.config.RightDoor()])
            && (SpeechText(r.value.speechlet) == "Both doors are " + doors[0] <==> doors[0] == doors[1]))
  {
    var r := OnIntent(h, doors, Intent("AllStatesIntent", map[]));
    if |doors| == 2 {
      var s := AllStates(h.config, doors).value;
      assert r.value.speechlet == s;
      var speech := SpeechText(s);
      if doors[0] != doors[1] {
        assert speech[0] == 'T';
      }
    }
  }

  // ---- the request as a whole ----

  /** With LEFT in {0, 1} and one or two doors, only an unknown request type,
      a missing intent or an unknown intent name ends without a response. */
  lemma FatalOnlyForUnknownShapes(h: Handler, doors: seq<string>, request: Request)
    requires ValidLeft(h.config) && 1 <= |doors| <= 2
    ensures Process(h, doors, request).Err?
            <==> || request.requestType !in {"LaunchRequest", "IntentRequest", "SessionEndedRequest"}
                 || (request.requestType == "IntentRequest"
                     && (request.intent.None? || request.intent.value.name !in KnownIntents))
  {
    if request.requestType == "IntentRequest" && request.intent.Some? && request.intent.value.name == "AllStatesIntent" {
      AllStatesAnswer(ForDoors(h, doors), doors);
    }
  }

  /** With valid credentials, an intent request is answered by `on_intent`
      with the handler after the one-door rewrite; its reply is wrapped in
      the version "1.0" envelope with no session attributes, and its
      failure ends the invocation unchanged. */
  lemma HandleIntent(env: Environment, doors: seq<string>, intent: Intent)
    requires env.userName != "" && env.password != ""
    ensures NewHandler(env).Ok?
    ensures var r := LambdaHandler(env, doors, Request("IntentRequest", Some(intent)));
      var a := OnIntent(ForDoors(NewHandler(env).value, doors), doors, intent);
      && (r.Ok? <==> a.Ok?)
      && (r.Ok? ==> r.value == Outcome(BuildResponse(map[], a.value.speechlet), a.value.commands))
      && (r.Ok? ==> r.value.response.version == "1.0" && r.value.response.sessionAttributes == map[])
      && (r.Err? ==> r.error == a.error)
  {
  }

  /** A launch or help request is answered with the welcome text for the
      household's door count, and the session then ends. */
  lemma WelcomeForHousehold(env: Environment, doors: seq<string>, request: Request)
    requires env.userName != "" && env.password != ""
    requires request.requestType == "LaunchRequest"
             || (request.requestType == "IntentRequest" && request.intent.Some?
                 && request.intent.value.name == "AMAZON.HelpIntent")
    ensures var r := LambdaHandler(env, doors, request);
      var onlyClose := ValidateEnv(env).value.onlyClose;
      && r.Ok? && r.value.commands == []
      && SpeechText(r.value.response.response) == WelcomeText(MessagesFor(onlyClose, |doors|))
      && r.value.response.response.shouldEndSession
  {
  }
}

=== FILE: scenarios.dfy ===
/** The repository's test cases, stated over the model: two doors, both
    closed, LEFT unset. */
module Scenarios {
  import opened Outcomes
  import opened Text
  import opened Speech
  import opened Settings
  import opened Doors
  import opened Dispatcher
  import opened Decimal
  import GarageProperties

  const BothClosed := ["closed", "closed"]

  function Env(onlyClose: bool): Environment {
    Environment("user", "secret", None, Some(onlyClose))
  }

  /** A resolved slot whose spoken text and canonical id may differ. */
  function Resolved(spoken: string, id: string): Slot {
    Slot(Some(spoken), Some(id))
  }

  function AskLeftClosed(): Intent {
    Intent("StateIntent", map["Name" := Resolved("the left door", "left"), "State" := Resolved("closed", "closed")])
  }

  function OpenLeft(): Intent {
    Intent("MoveIntent", map["Name" := Resolved("the left door", "left"), "Command" := Resolved("open", "open")])
  }

  function ShutDoorOne(): Intent {
    Intent("MoveIntent", map["Name" := Resolved("1", "left"), "Command" := Resolved("shut", "close")])
  }

  function ShutBoth(): Intent {
    Intent("MoveIntent", map["Name" := Resolved("both doors", "both"), "Command" := Resolved("shut", "close")])
  }

  function OpenDoorThree(): Intent {
    Intent("MoveIntent", map["Name" := Resolved("door three", "3"), "Command" := Resolved("open", "open")])
  }

  function AskLeftWithoutState(): Intent {
    Intent("StateIntent", map["Name" := Resolved("the left door", "left")])
  }

  function Ask(intent: Intent): Request {
    Request("IntentRequest", Some(intent))
  }

  function Spoken(r: Result<Outcome, Fatal>): string {
    if r.Ok? then SpeechText(r.value.response.response) else ""
  }

  /** The handler a test invocation runs with, after the one-door check. */
  lemma TestHandler(onlyClose: bool)
    ensures NewHandler(Env(onlyClose)).Ok?
    ensures var h := NewHandler(Env(onlyClose)).value;
      && h.config == Config("user", "secret", 0, onlyClose)
      && h.messages == InitialMessages(onlyClose)
      && ForDoors(h, BothClosed) == h
  {
  }

  lemma TwoDoorOfferText()
    ensures InitialMessages(false).move == "open or close the left or right door"
  {
  }

  /** The two-door welcome text, as the launch test expects it to begin. */
  lemma TwoDoorWelcomeText()
    ensures StartsWith(WelcomeText(InitialMessages(false)), "You can " + "open or close the left or right door")
  {
    var m := InitialMessages(false);
    var offer := "You can " + "open or close the left or right door";
    var rest := ". You can also " + m.check + ".";
    TwoDoorOfferText();
    assert WelcomeText(m) == offer + rest;
    StartsWithExtend(offer, rest, offer);
  }

  lemma LaunchOffersBothDoors()
    ensures StartsWith(Spoken(LambdaHandler(Env(false), BothClosed, Request("LaunchRequest", None))),
                       "You can " + "open or close the left or right door")
  {
    GarageProperties.WelcomeForHousehold(Env(false), BothClosed, Request("LaunchRequest", None));
    TwoDoorWelcomeText();
  }

  lemma HelpOffersBothDoors()
    ensures StartsWith(Spoken(LambdaHandler(Env(false), BothClosed, Ask(Intent("AMAZON.HelpIntent", map[])))),
                       "You can " + "open or close the left or right door")
  {
    GarageProperties.WelcomeForHousehold(Env(false), BothClosed, Ask(Intent("AMAZON.HelpIntent", map[])));
    TwoDoorWelcomeText();
  }

  // The `...Phrase` lemmas and `TwoDoorOfferText` each settle one
  // equality between literal strings. Proved apart, the character-by-character
  // comparison does not weigh on the scenario that uses it.

  lemma YesPhrase()
    ensures "Yes, " + "the left door" + " is " + "closed" == "Yes, the left door is closed"
  {
  }

  lemma BothClosedPhrase()
    ensures "Both doors are " + "closed" == "Both doors are closed"
  {
  }

  lemma AlreadyPhrase()
    ensures "1" + " is already " + "closed" == "1 is already closed"
  {
  }

  lemma LeftDoorIsClosed()
    ensures Spoken(LambdaHandler(Env(false), BothClosed, Ask(AskLeftClosed()))) == "Yes, the left door is closed"
  {
    TestHandler(false);
    var h := NewHandler(Env(false)).value;
    GarageProperties.HandleIntent(Env(false), BothClosed, AskLeftClosed());
    GarageProperties.StateAnswer(h, BothClosed, AskLeftClosed(), "the left door", "left", Resolved("closed", "closed"));
    YesPhrase();
  }

  lemma BothDoorsAreClosed()
    ensures Spoken(LambdaHandler(Env(false), BothClosed, Ask(Intent("AllStatesIntent", map[]))))
            == "Both doors are closed"
  {
    TestHandler(false);
    var h := NewHandler(Env(false)).value;
    GarageProperties.HandleIntent(Env(false), BothClosed, Intent("AllStatesIntent", map[]));
    GarageProperties.AllStatesAnswer(h, BothClosed);
    BothClosedPhrase();
  }

  lemma OnlyCloseRefusesOpen()
    ensures var r := LambdaHandler(Env(true), BothClosed, Ask(OpenLeft()));
      Spoken(r) == "Sorry, I can only close the door" && r.value.commands == []
  {
    TestHandler(true);
    var h := NewHandler(Env(true)).value;
    GarageProperties.HandleIntent(Env(true), BothClosed, OpenLeft());
    GarageProperties.MoveOneDoor(h, BothClosed, "the left door", "left", Resolved("open", "open"));
    assert OpenLeft() == GarageProperties.MoveRequest(Resolved("the left door", "left"), Resolved("open", "open"));
  }

  lemma OpeningLeftPhrase()
    ensures "Ok, " + Opening.Verb() + " " + "the left door" + " now" == "Ok, opening the left door now"
  {
  }

  lemma OpenLeftDoor()
    ensures var r := LambdaHandler(Env(false), BothClosed, Ask(OpenLeft()));
      Spoken(r) == "Ok, opening the left door now" && r.value.commands == [Open(0)]
  {
    TestHandler(false);
    var h := NewHandler(Env(false)).value;
    GarageProperties.HandleIntent(Env(false), BothClosed, OpenLeft());
    GarageProperties.MoveOneDoor(h, BothClosed, "the left door", "left", Resolved("open", "open"));
    assert OpenLeft() == GarageProperties.MoveRequest(Resolved("the left door", "left"), Resolved("open", "open"));
    OpeningLeftPhrase();
  }

  lemma CloseClosedDoor()
    ensures var r := LambdaHandler(Env(false), BothClosed, Ask(ShutDoorOne()));
      Spoken(r) == "1 is already closed" && r.value.commands == []
  {
    TestHandler(false);
    var h := NewHandler(Env(false)).value;
    GarageProperties.HandleIntent(Env(false), BothClosed, ShutDoorOne());
    GarageProperties.MoveOneDoor(h, BothClosed, "1", "left", Resolved("shut", "close"));
    assert ShutDoorOne() == GarageProperties.MoveRequest(Resolved("1", "left"), Resolved("shut", "close"));
    AlreadyPhrase();
  }

  lemma CloseBothClosedDoors()
    ensures var r := LambdaHandler(Env(false), BothClosed, Ask(ShutBoth()));
      Spoken(r) == "Both doors are closed" && r.value.commands == []
  {
    TestHandler(false);
    var h := NewHandler(Env(false)).value;
    GarageProperties.HandleIntent(Env(false), BothClosed, ShutBoth());
    GarageProperties.BothIsMoveAll(h, BothClosed, "both doors", Resolved("shut", "close"));
    assert ShutBoth() == GarageProperties.MoveRequest(Resolved("both doors", "both"), Resolved("shut", "close"));
  }

  lemma StopSaysGoodbye()
    ensures Spoken(LambdaHandler(Env(false), BothClosed, Ask(Intent("AMAZON.StopIntent", map[])))) == "Goodbye"
  {
    TestHandler(false);
    GarageProperties.HandleIntent(Env(false), BothClosed, Intent("AMAZON.StopIntent", map[]));
  }

  lemma UnknownIntentIsFatal()
    ensures LambdaHandler(Env(false), BothClosed, Ask(Intent("OrderPizzaIntent", map[])))
            == Err(UnknownIntent("OrderPizzaIntent"))
  {
    TestHandler(false);
    GarageProperties.HandleIntent(Env(false), BothClosed, Intent("OrderPizzaIntent", map[]));
  }

  /** A selector past the last door is caught: "Try again", the session
      stays open and nothing is sent. */
  lemma NoThirdDoor()
    ensures var r := LambdaHandler(Env(false), BothClosed, Ask(OpenDoorThree()));
      && r.Ok? && r.value.commands == []
      && Title(r.value.response.response) == RetryTitle
      && !r.value.response.response.shouldEndSession
  {
    TestHandler(false);
    var h := NewHandler(Env(false)).value;
    GarageProperties.HandleIntent(Env(false), BothClosed, OpenDoorThree());
    assert DecimalString(3) == "3";
    GarageProperties.NumericSelector(0, 3);
    assert TryMove(h.config, BothClosed, OpenDoorThree()).Err?;
  }

  /** A state question without a State slot is caught the same way. */
  lemma StateWithoutSlot()
    ensures var r := LambdaHandler(Env(false), BothClosed, Ask(AskLeftWithoutState()));
      && r.Ok? && r.value.commands == []
      && Title(r.value.response.response) == RetryTitle
      && !r.value.response.response.shouldEndSession
  {
    TestHandler(false);
    var h := NewHandler(Env(false)).value;
    GarageProperties.HandleIntent(Env(false), BothClosed, AskLeftWithoutState());
    assert TryState(h.config, BothClosed, AskLeftWithoutState()).Err?;
  }
}

=== FILE: settings.dfy ===
/** Handler configuration (`validate_env`) and the help phrases set up in
    `__init__` and rewritten for one-door households in `process`. */
module Settings {
  import opened Outcomes
  import opened Text

  /** The environment as read: `LEFT` and `ONLY_CLOSE` may be unset. */
  datatype Environment = Environment(userName: string, password: string, left: Option<int>, onlyClose: Option<bool>)

  /** `leftDoor` is the list position of the door called "left"; the right
      door is the other one. When `onlyClose` holds, single doors are never opened. */
  datatype Config = Config(userName: string, password: string, leftDoor: int, onlyClose: bool) {
    function RightDoor(): int {
      1 - leftDoor
    }
  }

  const DefaultLeft := 0
  const DefaultOnlyClose := true
  const UserNameMissing := "USER_NAME environment variable needs to be set to your MyQ user name"
  const PasswordMissing := "PASSWORD environment variable needs to be set to your MyQ password"

  function EnvironmentErrors(env: Environment): seq<string> {
    (if env.userName == "" then [UserNameMissing] else [])
    + (if env.password == "" then [PasswordMissing] else [])
  }

  /** Credentials must both be non-empty; otherwise the error lists what is
      missing, comma separated, user name first. */
  function ValidateEnv(env: Environment): (r: Result<Config, string>)
    ensures r.Ok? <==> env.userName != "" && env.password != ""
    ensures r.Ok? ==> r.value.userName == env.userName && r.value.password == env.password
    ensures r.Ok? ==> r.value.leftDoor == env.left.GetOr(DefaultLeft)
    ensures r.Ok? ==> (r.value.onlyClose <==> env.onlyClose != Some(false))
    ensures env.userName == "" && env.password != "" ==> r == Err(UserNameMissing)
    ensures env.userName != "" && env.password == "" ==> r == Err(PasswordMissing)
    ensures env.userName == "" && env.password == "" ==> r == Err(UserNameMissing + "," + PasswordMissing)
  {
    var errors := EnvironmentErrors(env);
    if |errors| > 0 then
      assert |errors| == 2 ==> Join(errors, ",") == errors[0] + "," + Join(errors[1..], ",");
      Err(Join(errors, ","))
    else Ok(Config(env.userName, env.password, env.left.GetOr(DefaultLeft), env.onlyClose.GetOr(DefaultOnlyClose)))
  }

  /** The phrase removed from every help message when there is one door. */
  const Qualifier := " left or right"

  // The longer phrases are written as two literals joined with `+`: the
  // verifier decides which characters a phrase contains far more cheaply
  // for short literals than for one long one.

  const OpenOffer := "open or "
  const MoveStem := "close the"
  const MoveTail := " door"
  const CheckMessage := "check the state of your garage door " + "by asking what's up"
  const Check1Stem := "check the state of your garage door " + "by asking if the"
  const Check1Tail := " door is open"

  /** `move` is what can be asked of the doors, `check` is how to ask about
      all doors and `check1` how to ask about one. */
  datatype Messages = Messages(move: string, check: string, check1: string)

  function InitialMessages(onlyClose: bool): Messages {
    var move := MoveStem + Qualifier + MoveTail;
    Messages(if onlyClose then move else OpenOffer + move, CheckMessage, Check1Stem + Qualifier + Check1Tail)
  }

  /** The one-door rewrite: the qualifier is replaced by nothing in `move` and
      in `check1`, and `check` becomes the rewritten `check1`. */
  function OneDoor(m: Messages): Messages {
    var check1 := RemoveAll(m.check1, Qualifier);
    Messages(RemoveAll(m.move, Qualifier), check1, check1)
  }

  /** The phrases in effect for a household with `doorCount` doors. */
  function MessagesFor(onlyClose: bool, doorCount: nat): Messages {
    if doorCount == 1 then OneDoor(InitialMessages(onlyClose)) else InitialMessages(onlyClose)
  }

  function WelcomeText(m: Messages): string {
    "You can " + m.move + ". You can also " + m.check + "."
  }

  /** Where the qualifier's letters 'l' and 'f' sit: each appears once. */
  lemma QualifierAnchors()
    ensures Qualifier[1] == 'l' && forall j :: 0 <= j < |Qualifier| && Qualifier[j] == 'l' ==> j == 1
    ensures Qualifier[3] == 'f' && forall j :: 0 <= j < |Qualifier| && Qualifier[j] == 'f' ==> j == 3
    ensures Qualifier[4] == 't'
  {
  }

  /** Removing the qualifier from the move phrase leaves the one-door phrase. */
  lemma MoveRewrite(offer: string)
    requires offer == "" || offer == OpenOffer
    ensures RemoveAll(offer + MoveStem + Qualifier + MoveTail, Qualifier) == offer + MoveStem + MoveTail
  {
    var a := offer + MoveStem;
    assert 'f' !in a && 'f' !in MoveTail;
    QualifierAnchors();
    forall i | MatchAt(Qualifier, a + Qualifier + MoveTail, i)
      ensures i == |a|
    {
      AnchoredMatch(Qualifier, a, MoveTail, 'f', 3, i);
    }
    RemoveSingle(a, Qualifier, MoveTail);
  }

  /** Removing the qualifier from the one-door question leaves the one-door question. */
  lemma Check1Rewrite()
    ensures RemoveAll(Check1Stem + Qualifier + Check1Tail, Qualifier) == Check1Stem + Check1Tail
  {
    assert 'l' !in Check1Stem && 'l' !in Check1Tail;
    QualifierAnchors();
    forall i | MatchAt(Qualifier, Check1Stem + Qualifier + Check1Tail, i)
      ensures i == |Check1Stem|
    {
      AnchoredMatch(Qualifier, Check1Stem, Check1Tail, 'l', 1, i);
    }
    RemoveSingle(Check1Stem, Qualifier, Check1Tail);
  }

  /** The one-door rewrite removes exactly the one qualifier in each phrase. */
  lemma OneDoorPhrases(onlyClose: bool)
    ensures OneDoor(InitialMessages(onlyClose))
         == Messages((if onlyClose then "" else OpenOffer) + MoveStem + MoveTail,
                     Check1Stem + Check1Tail, Check1Stem + Check1Tail)
  {
    var offer := if onlyClose then "" else OpenOffer;
    assert InitialMessages(onlyClose).move == offer + MoveStem + Qualifier + MoveTail;
    MoveRewrite(offer);
    Check1Rewrite();
  }

  /** A move phrase, with or without the qualifier, offers opening exactly when it starts with the offer. */
  lemma MoveOffers(offer: string, qualifier: string)
    requires offer == "" || offer == OpenOffer
    requires qualifier == "" || qualifier == Qualifier
    ensures var move := offer + MoveStem + qualifier + MoveTail;
      && (StartsWith(move, OpenOffer) <==> offer == OpenOffer)
      && (Occurs(OpenOffer, move) <==> offer == OpenOffer)
  {
    var move := offer + MoveStem + qualifier + MoveTail;
    if offer == "" {
      assert 'p' !in MoveStem && 'p' !in qualifier && 'p' !in MoveTail;
      AbsentChar(OpenOffer, move, 'p');
    } else {
      assert MatchAt(OpenOffer, move, 0);
    }
  }

  /** The move phrase offers opening exactly when `onlyClose` is off. */
  lemma OpenOffered(onlyClose: bool, doorCount: nat)
    ensures var m := MessagesFor(onlyClose, doorCount);
      && (StartsWith(m.move, OpenOffer) <==> !onlyClose)
      && (Occurs(OpenOffer, m.move) <==> !onlyClose)
  {
    var offer := if onlyClose then "" else OpenOffer;
    if doorCount == 1 {
      OneDoorPhrases(onlyClose);
      assert MessagesFor(onlyClose, doorCount).move == offer + MoveStem + "" + MoveTail;
      MoveOffers(offer, "");
    } else {
      assert MessagesFor(onlyClose, doorCount).move == offer + MoveStem + Qualifier + MoveTail;
      MoveOffers(offer, Qualifier);
    }
  }

  /** The one-door phrases do not contain the qualifier. */
  lemma OneDoorPhrasesUnqualified(offer: string)
    requires offer == "" || offer == OpenOffer
    ensures !Occurs(Qualifier, offer + MoveStem + MoveTail)
    ensures !Occurs(Qualifier, Check1Stem + Check1Tail)
  {
    assert 'f' !in offer && 'f' !in MoveStem && 'f' !in MoveTail;
    AbsentChar(Qualifier, offer + MoveStem + MoveTail, 'f');
    Check1Unqualified();
  }

  lemma Check1Unqualified()
    ensures !Occurs(Qualifier, Check1Stem + Check1Tail)
  {
    assert 'l' !in Check1Stem && 'l' !in Check1Tail;
    AbsentChar(Qualifier, Check1Stem + Check1Tail, 'l');
  }

  /** The two-door phrases contain the qualifier, except the all-doors question. */
  lemma TwoDoorPhrasesQualified(offer: string)
    requires offer == "" || offer == OpenOffer
    ensures Occurs(Qualifier, offer + MoveStem + Qualifier + MoveTail)
    ensures Occurs(Qualifier, Check1Stem + Qualifier + Check1Tail)
    ensures !Occurs(Qualifier, CheckMessage)
  {
    assert MatchAt(Qualifier, offer + MoveStem + Qualifier + MoveTail, |offer + MoveStem|);
    assert MatchAt(Qualifier, Check1Stem + Qualifier + Check1Tail, |Check1Stem|);
    assert 'l' !in CheckMessage;
    AbsentChar(Qualifier, CheckMessage, 'l');
  }

  /** The help phrases name "left or right" exactly when there is not a single door. */
  lemma QualifierNamed(onlyClose: bool, doorCount: nat)
    ensures var m := MessagesFor(onlyClose, doorCount);
      && (Occurs(Qualifier, m.move) <==> doorCount != 1)
      && (Occurs(Qualifier, m.check1) <==> doorCount != 1)
      && !Occurs(Qualifier, m.check)
  {
    var offer := if onlyClose then "" else OpenOffer;
    if doorCount == 1 {
      OneDoorPhrases(onlyClose);
      OneDoorPhrasesUnqualified(offer);
    } else {
      assert MessagesFor(onlyClose, doorCount).move == offer + MoveStem + Qualifier + MoveTail;
      TwoDoorPhrasesQualified(offer);
    }
  }

  /** The one-door question cut just after each of its two 'f's. */
  lemma Check1AtEachF()
    ensures Check1Stem == "check the state o" + "f" + " your garage door by asking i" + "f" + " the"
  {
  }

  /** In the one-door question every 'f' is followed by a space, never by 't'. */
  lemma Check1NoFt()
    ensures NoPair(Check1Stem + Check1Tail, 'f', 't')
  {
    var a, b, c := "check the state o", " your garage door by asking i", " the";
    Check1AtEachF();
    assert 'f' !in a && 'f' !in b && 'f' !in c && 'f' !in Check1Tail;
    NoPairConcat(a, "f", 'f', 't');
    NoPairConcat(a + "f", b, 'f', 't');
    NoPairConcat(a + "f" + b, "f", 'f', 't');
    NoPairConcat(a + "f" + b + "f", c, 'f', 't');
    NoPairConcat(Check1Stem, Check1Tail, 'f', 't');
  }

  /** The one-door welcome sentence has no 'f' followed by 't', while the
      qualifier has one ("left"), so it cannot contain the qualifier. */
  lemma OneDoorWelcomeUnqualified(offer: string)
    requires offer == "" || offer == OpenOffer
    ensures !Occurs(Qualifier, WelcomeText(Messages(offer + MoveStem + MoveTail,
                                                    Check1Stem + Check1Tail, Check1Stem + Check1Tail)))
  {
    var check := Check1Stem + Check1Tail;
    var head := "You can " + (offer + MoveStem + MoveTail) + ". You can also ";
    assert 'f' !in offer && 'f' !in MoveStem && 'f' !in MoveTail;
    assert 'f' !in head;
    Check1NoFt();
    NoPairConcat(head, check, 'f', 't');
    NoPairConcat(head + check, ".", 'f', 't');
    QualifierAnchors();
    AbsentPair(Qualifier, head + check + ".", 3);
  }

  /** The two-door welcome sentence contains the qualifier, inside its move phrase. */
  lemma TwoDoorWelcomeQualified(offer: string, check: string)
    requires offer == "" || offer == OpenOffer
    ensures Occurs(Qualifier, WelcomeText(Messages(offer + MoveStem + Qualifier + MoveTail, CheckMessage, check)))
  {
    var a := "You can " + offer + MoveStem;
    var b := MoveTail + ". You can also " + CheckMessage + ".";
    assert WelcomeText(Messages(offer + MoveStem + Qualifier + MoveTail, CheckMessage, check)) == a + Qualifier + b;
    assert (a + Qualifier + b)[|a|..|a| + |Qualifier|] == Qualifier;
    assert MatchAt(Qualifier, a + Qualifier + b, |a|);
  }

  /** The welcome sentence says "left or right" exactly when the household
      does not have exactly one door. */
  lemma WelcomeNamesDoors(onlyClose: bool, doorCount: nat)
    ensures Occurs(Qualifier, WelcomeText(MessagesFor(onlyClose, doorCount))) <==> doorCount != 1
  {
    var offer := if onlyClose then "" else OpenOffer;
    if doorCount == 1 {
      OneDoorPhrases(onlyClose);
      OneDoorWelcomeUnqualified(offer);
    } else {
      assert InitialMessages(onlyClose).move == offer + MoveStem + Qualifier + MoveTail;
      TwoDoorWelcomeQualified(offer, InitialMessages(onlyClose).check1);
    }
  }

  /** The welcome text offers to open exactly when its move phrase does. */
  lemma WelcomeOffer(m: Messages)
    requires |m.move| >= |OpenOffer|
    ensures StartsWith(WelcomeText(m), "You can " + OpenOffer) <==> StartsWith(m.move, OpenOffer)
  {
    var rest := ". You can also " + m.check + ".";
    assert WelcomeText(m) == "You can " + (m.move + rest);
    StartsWithAfter("You can ", m.move + rest, OpenOffer);
    StartsWithExtend(m.move, rest, OpenOffer);
  }

  /** The welcome text starts by offering to open exactly when `onlyClose` is off. */
  lemma WelcomeOffersOpen(onlyClose: bool, doorCount: nat)
    ensures StartsWith(WelcomeText(MessagesFor(onlyClose, doorCount)), "You can " + OpenOffer) <==> !onlyClose
  {
    var m := MessagesFor(onlyClose, doorCount);
    OpenOffered(onlyClose, doorCount);
    OneDoorPhrases(onlyClose);
    assert |m.move| >= |MoveStem + MoveTail|;
    WelcomeOffer(m);
  }
}

=== FILE: speech.dfy ===
/** The response payload: `build_speechlet_response` and `build_response`. */
module Speech {
  import opened Text

  const PlainText := "PlainText"
  const SimpleCard := "Simple"
  const TitlePrefix := "MyQ - "
  const ResponseVersion := "1.0"

  datatype OutputSpeech = OutputSpeech(kind: string, text: string)

  datatype Card = Card(kind: string, title: string, content: string)

  /** A speechlet; `NoSpeech` is the empty dictionary returned when the
      session ends. */
  datatype Speechlet =
    | Speechlet(outputSpeech: OutputSpeech, card: Card, reprompt: OutputSpeech, shouldEndSession: bool)
    | NoSpeech

  datatype Envelope = Envelope(version: string, sessionAttributes: map<string, string>, response: Speechlet)

  /** The shape every built speechlet has: plain-text speech shown verbatim on
      a simple card whose title carries the skill prefix, and a session that
      stays open exactly when there is something to reprompt with. */
  predicate WellFormed(s: Speechlet) {
    && s.Speechlet?
    && s.outputSpeech.kind == PlainText
    && s.reprompt.kind == PlainText
    && s.card.kind == SimpleCard
    && s.card.content == s.outputSpeech.text
    && StartsWith(s.card.title, TitlePrefix)
    && (s.shouldEndSession <==> s.reprompt.text == "")
  }

  /** The (title, speech, reprompt) triple a well-formed speechlet was built from. */
  function Parts(s: Speechlet): (string, string, string)
    requires WellFormed(s)
  {
    (s.card.title[|TitlePrefix|..], s.outputSpeech.text, s.reprompt.text)
  }

  function Build(title: string, output: string, reprompt: string): (r: Speechlet)
    ensures WellFormed(r)
    ensures Parts(r) == (title, output, reprompt)
    ensures r.shouldEndSession <==> reprompt == ""
  {
    Speechlet(
      OutputSpeech(PlainText, output),
      Card(SimpleCard, TitlePrefix + title, output),
      OutputSpeech(PlainText, reprompt),
      reprompt == "")
  }

  /** Every well-formed speechlet is the one built from its parts, so `Build`
      and `Parts` are mutually inverse on well-formed speechlets. */
  lemma BuildFromParts(s: Speechlet)
    requires WellFormed(s)
    ensures Build(Parts(s).0, Parts(s).1, Parts(s).2) == s
  {
    assert TitlePrefix + s.card.title[|TitlePrefix|..] == s.card.title;
  }

  /** Two speechlets built from different parts differ. */
  lemma BuildInjective(t: string, o: string, p: string, t': string, o': string, p': string)
    requires Build(t, o, p) == Build(t', o', p')
    ensures t == t' && o == o' && p == p'
  {
    assert Parts(Build(t, o, p)) == Parts(Build(t', o', p'));
  }

  function BuildResponse(attributes: map<string, string>, speechlet: Speechlet): (r: Envelope)
    ensures r.version == ResponseVersion
    ensures r.sessionAttributes == attributes && r.response == speechlet
  {
    Envelope(ResponseVersion, attributes, speechlet)
  }

  /** The speech text of a response, empty when there is none. */
  function SpeechText(s: Speechlet): string {
    if s.Speechlet? then s.outputSpeech.text else ""
  }

  /** The card title of a response without the skill prefix. */
  function Title(s: Speechlet): string {
    if s.Speechlet? && StartsWith(s.card.title, TitlePrefix) then s.card.title[|TitlePrefix|..] else ""
  }
}

=== FILE: text.dfy ===
/** String operations the handler relies on: substring search, Python's
    `str.replace(pattern, '')` and `str.join`. */
module Text {

  /** `p` occurs in `s` starting at index `i`. */
  predicate MatchAt(p: string, s: string, i: int) {
    0 <= i && i + |p| <= |s| && s[i..i + |p|] == p
  }

  /** Python's `p in s`. */
  predicate Occurs(p: string, s: string) {
    exists i | 0 <= i <= |s| - |p| :: MatchAt(p, s, i)
  }

  predicate StartsWith(s: string, prefix: string) {
    |prefix| <= |s| && s[..|prefix|] == prefix
  }

  /** A common prefix does not change whether one string starts with another. */
  lemma StartsWithAfter(x: string, y: string, z: string)
    ensures StartsWith(x + y, x + z) <==> StartsWith(y, z)
  {
    if StartsWith(x + y, x + z) {
      assert y[..|z|] == (x + y)[..|x + z|][|x|..];
    }
    if StartsWith(y, z) {
      assert (x + y)[..|x + z|] == x + y[..|z|];
    }
  }

  /** Appending to a string long enough to hold the prefix keeps the answer. */
  lemma StartsWithExtend(y: string, rest: string, z: string)
    requires |z| <= |y|
    ensures StartsWith(y + rest, z) <==> StartsWith(y, z)
  {
    assert (y + rest)[..|z|] == y[..|z|];
  }

  /** Python's `s.replace(p, '')`: scan from the left and drop every
      non-overlapping occurrence of `p`. */
  function RemoveAll(s: string, p: string): string
    requires |p| > 0
    decreases |s|
  {
    if |s| < |p| then s
    else if s[..|p|] == p then RemoveAll(s[|p|..], p)
    else [s[0]] + RemoveAll(s[1..], p)
  }

  /** Python's `sep.join(parts)`. */
  function Join(parts: seq<string>, sep: string): string
    decreases |parts|
  {
    if |parts| == 0 then ""
    else if |parts| == 1 then parts[0]
    else parts[0] + sep + Join(parts[1..], sep)
  }

  /** Every character of a pattern that occurs in `s` is a character of `s`;
      so a character of `p` missing from `s` rules out any occurrence. */
  lemma AbsentChar(p: string, s: string, c: char)
    requires c in p && c !in s
    ensures !Occurs(p, s)
  {
  }

  /** No `x` in `s` is immediately followed by `y`. */
  predicate NoPair(s: string, x: char, y: char) {
    forall j :: 0 <= j < |s| - 1 ==> !(s[j] == x && s[j + 1] == y)
  }

  /** The pair `x y` is absent from `a + b` when it is absent from both and
      does not straddle the join. */
  lemma NoPairConcat(a: string, b: string, x: char, y: char)
    requires NoPair(a, x, y) && NoPair(b, x, y)
    requires |a| > 0 && |b| > 0 ==> !(a[|a| - 1] == x && b[0] == y)
    ensures NoPair(a + b, x, y)
  {
    var s := a + b;
    forall j | 0 <= j < |s| - 1
      ensures !(s[j] == x && s[j + 1] == y)
    {
      if j + 1 < |a| {
        assert s[j] == a[j] && s[j + 1] == a[j + 1];
      } else if j >= |a| {
        assert s[j] == b[j - |a|] && s[j + 1] == b[j + 1 - |a|];
      }
    }
  }

  /** Two adjacent characters of `p` that never stand side by side in `s`
      rule out any occurrence of `p` in `s`. */
  lemma AbsentPair(p: string, s: string, k: nat)
    requires k + 1 < |p| && NoPair(s, p[k], p[k + 1])
    ensures !Occurs(p, s)
  {
    forall i | 0 <= i <= |s| - |p|
      ensures !MatchAt(p, s, i)
    {
      assert s[i..i + |p|][k] == s[i + k];
      assert s[i..i + |p|][k + 1] == s[i + k + 1];
    }
  }

  /** If a character appears exactly once in `p` (at `k`) and nowhere in `a` or
      `b`, the only occurrence of `p` in `a + p + b` is the visible one. */
  lemma AnchoredMatch(p: string, a: string, b: string, c: char, k: nat, i: int)
    requires k < |p| && p[k] == c
    requires forall j :: 0 <= j < |p| && p[j] == c ==> j == k
    requires c !in a && c !in b
    requires MatchAt(p, a + p + b, i)
    ensures i == |a|
  {
    var s := a + p + b;
    assert s[i + k] == s[i..i + |p|][k] == c;
    if |a| <= i + k < |a| + |p| {
      assert s[i + k] == p[i + k - |a|];
    }
  }

  /** Removing a pattern that does not occur leaves the string unchanged. */
  lemma {:induction false} RemoveAbsent(s: string, p: string)
    requires |p| > 0
    requires !Occurs(p, s)
    ensures RemoveAll(s, p) == s
    decreases |s|
  {
    if |s| >= |p| {
      assert !MatchAt(p, s, 0);
      forall i | MatchAt(p, s[1..], i)
        ensures MatchAt(p, s, i + 1)
      {
        assert s[1..][i..i + |p|] == s[i + 1..i + 1 + |p|];
      }
      RemoveAbsent(s[1..], p);
      assert s == [s[0]] + s[1..];
    }
  }

  /** When `p` occurs in `a + p + b` only at the visible position, Python's
      `replace(p, '')` yields exactly `a + b`. */
  lemma {:induction false} RemoveSingle(a: string, p: string, b: string)
    requires |p| > 0
    requires forall i :: MatchAt(p, a + p + b, i) ==> i == |a|
    ensures RemoveAll(a + p + b, p) == a + b
    decreases |a|
  {
    var s := a + p + b;
    if |a| == 0 {
      assert s[..|p|] == p;
      assert s[|p|..] == b;
      forall i | MatchAt(p, b, i)
        ensures false
      {
        assert s[|p| + i..|p| + i + |p|] == b[i..i + |p|];
        assert MatchAt(p, s, |p| + i);
      }
      RemoveAbsent(b, p);
    } else {
      assert !MatchAt(p, s, 0);
      var s' := a[1..] + p + b;
      assert s[1..] == s';
      forall i | MatchAt(p, s', i)
        ensures i == |a[1..]|
      {
        assert s[i + 1..i + 1 + |p|] == s'[i..i + |p|];
        assert MatchAt(p, s, i + 1);
      }
      RemoveSingle(a[1..], p, b);
      assert a + b == [a[0]] + (a[1..] + b);
    }
  }
}
